=== FILE: README.md ===
# Seven-sect race: a Dafny model of the game engine

The game is a browser board game for a human game master (the DM). Seven
martial-arts sects race along a track of 121 waypoints, from progress 0 to the
goal at progress 120. Turns follow a fixed queue, and each pass through the
queue is one day with its own weather.

On a sect's turn the DM types a distance. The engine works out the waypoint
the sect would reach. If another sect already stands there, the move becomes
a collision (PvP), which the DM settles as a battle, a negotiation or a
cooperation. Otherwise a 70% roll may turn it into an opportunity, which the
DM settles with a distance, stat changes and two optional effects: a lost
next turn, or an extra action. Any other move is committed directly. A text
generator supplies the narrative, split on the reserved delimiter `|||`, with
fixed fallback text for every missing piece.

The model consists of these modules:

- `Types` holds the records: sect ids, stats, sect state, log entries, the game
  state and the pending interaction.
- `Text` holds the JavaScript string operations the engine depends on:
  `split('|||')`, `trim()` over the ECMAScript white-space set, and the
  decimal rendering of integers inside template strings.
- `Locations` is the clamped waypoint lookup.
- `Narrative` covers how generated text is post-processed: splitting, trimming,
  fallbacks, and packing the opportunity description for the DM dialog.
- `TurnCommit` is the commit of a turn together with the turn and day scheduler.
- `Engine` covers game set-up, stat edits, the start of a turn with its
  encounter detection, and the two resolutions.
- `Invariants` defines the consistency of a game and proves that every
  operation preserves it and only ever appends to the logs.

Each operation is a pure function from the session to the next session. A
session is the game state plus the decision, if any, that awaits the DM.
Randomness, the DM's inputs and the generator's replies are parameters. The
generator's reply is one of three cases: no API key, a failed call, or the
reply text.

React applies state updates in the order they are queued. The model follows
that order:
- `resolvePvP` first applies the loser's retreat, then the commit.
- `resolveOpportunity` first applies the stat and skip update, then the commit.

The collision scan walks `Object.keys(sectStates)`. That order is the
`SECT_ORDER` array, which is also the turn queue (both are set in
App.tsx:195-215), so the model scans the turn queue.

The string literals in App.tsx are stored with a broken encoding. The model
uses the Chinese text they decode to, for example "停滞", "原地", " (连动)",
"【停滞】受前事影响，…" and "-d里 (败)".

## Model

| member | source | states |
|---|---|---|
| `Text.Split` | services/geminiService.ts:83 | The pieces of a split on the delimiter hold no delimiter, there is always at least one, and joining them back with the delimiter gives the input. Matching is leftmost: the first piece ends where the first delimiter starts, and no piece but the last ends in a bar. A text without the delimiter is a single piece |
| `Text.SplitUnique` | services/geminiService.ts:83 | The split is the only way to cut a text into delimiter-free pieces, none but the last ending in a bar, that join back to the text |
| `Text.SplitCons` | App.tsx:824-826 | Splitting a, the delimiter, then rest yields `a` followed by the pieces of `rest`, provided `a` has no delimiter and does not end in a bar |
| `Text.SplitPair` | App.tsx:824-826 | Splitting two delimiter-free fields joined by the delimiter gives exactly those two fields back, provided the first does not end in a bar |
| `Text.Trim` | services/geminiService.ts:86-87 | `trim()` returns a contiguous piece of the input. Only white space is cut from either end, the result neither starts nor ends with white space, and the result is empty exactly when the input is all white space |
| `Text.TrimIdempotent` | services/geminiService.ts:86-87 | Trimming twice is the same as trimming once |
| `Text.TrimKeepsNoDelim` | services/geminiService.ts:167-168 | Trimming a piece without the delimiter cannot create one |
| `Text.FindDelim` | services/geminiService.ts:83 | Finds the leftmost occurrence of the delimiter at or after k, or reports that there is none |
| `Text.IntDecimalRoundTrip` | App.tsx:501 | The decimal rendering of an integer in a template string reads back as that integer (sign included), so different distances print differently |
| `Types.SectAt` | types.ts:1-9 | Numbers the seven sect ids 0 to 6: the position maps back to the same ordinal |
| `Types.SevenSects` | types.ts:1-9 | There are exactly seven sect ids, and the ordinal is a bijection onto 0..6 |
| `Types.Stats.With` | App.tsx:318-329 | Replacing one stat sets that stat and leaves the other three as they were |
| `Types.Stats.Plus` | App.tsx:480-485 | Adding a stat delta adds each of the four deltas to its own stat |
| `Locations.LocationIndex` | App.tsx:186-190 | The table index is the floor of the progress, clamped to 0..120: 0 below the start, 120 at or past the goal, and otherwise the integer part |
| `Locations.LocationOf` | App.tsx:186-190 | Every progress value names an entry of the table. With a full 121-entry table that entry is the one at the clamped index, and an index past the end of a shorter table falls back to the first entry |
| `Locations.LocationOfClamped` | App.tsx:186-190 | Looking up any progress value gives the same waypoint as looking up that value clamped to the track |
| `Locations.LocationIndexMonotonic` | App.tsx:186-190 | A sect further along the track never stands at an earlier waypoint index |
| `Locations.IntegerProgressIndex` | App.tsx:186-190 | An integer progress on the track names exactly its own waypoint |
| `Narrative.FieldOr` | services/geminiService.ts:86-87 | The k-th field, trimmed, or the fallback, gives the trimmed field when it exists and is not blank, and the fallback otherwise |
| `Narrative.GenerateTurnEvent` | services/geminiService.ts:43-92 | The move narrative keeps the location name. Its story and summary are never empty, and fixed texts cover the offline and the failed generator. For any reply text, the story is the trimmed second field or the weather line, and the summary is the trimmed third field or "疾行赶路" |
| `Narrative.TurnEventFields` | services/geminiService.ts:83-88 | A reply in the requested format (lead, story and summary separated by the delimiter) yields its trimmed story and summary, with the weather line or "疾行赶路" when a field is blank. A reply without a second field falls back to the weather line |
| `Narrative.SplitTriple` | services/geminiService.ts:73-74 | Splitting a reply made of three delimiter-free fields gives back those three fields |
| `Narrative.GenerateConflictNarrative` | services/geminiService.ts:95-127 | The collision narrative is never empty. It is the trimmed reply when that is not blank; offline gives "狭路相逢，剑拔弩张。", and a failure or a blank reply gives "两派对峙。" |
| `Narrative.Pack` | services/geminiService.ts:166-168 | The event keeps the title and its description is the story, then the delimiter, then the notes, in that order |
| `Narrative.PackRoundTrip` | App.tsx:824-826 | The dialog reads a packed story and notes back unchanged whenever both are free of the delimiter and the story does not end in a bar |
| `Narrative.Unpack` | App.tsx:824-826 | The dialog's story and notes contain no delimiter. A description without the delimiter is all story with empty notes |
| `Narrative.OpportunityFieldsAsWritten` | services/geminiService.ts:130-173 | The title, story and notes are never empty. Offline gives "江湖奇遇" with the cave story and its advice; a failure gives "未知机遇", "景象模糊。" and "请DM自行裁决。"; a reply gives its first three fields, each trimmed, with "江湖变故", the weather line and "请DM自行裁决。" for a missing or blank field |
| `Narrative.OpportunityFieldsOfReply` | services/geminiService.ts:165-168 | A reply made of a title, a story and notes separated by the delimiter yields exactly those three, trimmed, with the fallback for each blank one |
| `Narrative.GenerateOpportunityEventAsWritten` | services/geminiService.ts:130-173 | The service's event: offline and failed give their fixed title and description; otherwise the title is the title field and the description the story field, the delimiter and the notes field |
| `Narrative.AsWrittenPackMisreads` | services/geminiService.ts:165-168 | As written, the reply T&#124;&#124;&#124;D&#124; is packed so that the dialog shows the story "D" and the notes "&#124;请DM自行裁决。" instead of "D&#124;" and "请DM自行裁决。" |
| `Narrative.StoryField` | services/geminiService.ts:168 | With the fault corrected, the story field is never empty, never ends in a bar, and has no delimiter when the weather label has none. It is the trimmed second field with its trailing bars dropped when that is not empty, and the weather line otherwise; so anything but the weather line is the trimmed field cut before a run of bars only |
| `Narrative.OpportunityFields` | services/geminiService.ts:130-173 | The corrected fields keep the original title and notes, take the corrected story field of the reply, and agree with the original fields whenever the original story does not end in a bar |
| `Narrative.GenerateOpportunityEvent` | services/geminiService.ts:130-173 | The corrected event has the same fixed offline and failure events as the service, and equals the service's event whenever the original story does not end in a bar |
| `Narrative.OpportunityRoundTrip` | App.tsx:824-826 | On every path, the dialog recovers exactly the story and the notes that the corrected service packed |
| `TurnCommit.NoteVisit` | App.tsx:504-507 | The visited list only grows, by at most one entry. A name is added only when it is new and differs from the current location, so the list stays duplicate-free |
| `TurnCommit.DayStamp` | App.tsx:516 | A history line starts with "[第", then the day number, which reads back as the day, then "日] ", and ends with the content |
| `TurnCommit.DescriptorReadsBack` | App.tsx:501 | The number in a non-zero move descriptor, between the sign and "里", reads back as the signed distance moved |
| `TurnCommit.MoveDescriptorInjective` | App.tsx:501 | A plain move descriptor ("+5里", "-3里", "原地") records the exact signed distance moved: equal descriptors mean equal distances |
| `TurnCommit.MoveDescriptor` | App.tsx:501-502 | A consumed skip reads "停滞" (followed only by the extra-action mark, if any), a move of zero starts with "原地" and is exactly "原地" without an extra action, and otherwise the first character gives the direction: '+' exactly for a forward move and '-' exactly for a backward one. The descriptor ends in " (连动)" exactly when the sect acts again |
| `TurnCommit.ExtraActionMark` | App.tsx:502 | An extra action only appends " (连动)" to the descriptor the move would have had anyway |
| `TurnCommit.Advance` | App.tsx:525-538 | Without an extra action the turn passes to the next sect. Passing the last sect starts a new day with fresh weather at index 0. An extra action keeps the turn, the day and the weather, and the index stays inside the queue |
| `TurnCommit.PartialRound` | App.tsx:525-538 | Within a day, the k-th ordinary commit hands the turn to sect k without changing the day |
| `TurnCommit.FullRound` | App.tsx:525-538 | One ordinary commit per queued sect returns the turn to the first sect and advances the day by exactly one |
| `TurnCommit.Commit` | App.tsx:496-553 | A commit changes only the committing sect: its stats are kept; progress and location are set; one visit, the descriptor of the signed move and one day-stamped history line are recorded; a consumed skip is cleared. It appends one 'move' log entry and then takes the scheduler step |
| `Engine.Initialize` | App.tsx:192-224 | A new game has every sect of the order at the start waypoint with stats 20/20/20/0, the descriptor "蓄势待发", an empty history, only the start as visited, and no skip. It is day 1 with the first sect to move and the opening line as the only log entry |
| `Engine.StatEdit` | App.tsx:318-329 | A direct stat edit overwrites exactly one stat of one sect and changes nothing else: no history line and no log entry |
| `Engine.PendingProgress` | App.tsx:349 | The pending progress is the old progress plus the input, capped at the goal but not clamped below, so it is non-negative for non-negative inputs |
| `Engine.FirstMeeting` | App.tsx:362-367 | Finds the first sect, in key order, that stands at the destination and is not the mover, or reports that there is none |
| `Engine.Classify` | App.tsx:362-394 | A collision happens only strictly between start and goal, with the first other sect at the destination in key order. Without a collision inside the track, no other sect is there. An opportunity happens exactly when the roll is won and there is no collision |
| `Engine.SkipMessage` | App.tsx:342 | The lost-turn line opens with "【停滞】受前事影响，", ends with " 本回合无法行动。", and the sect's name reads back from between the two |
| `Engine.TurnStart` | App.tsx:335-398 | A skip-flagged sect commits in place and consumes its flag. Otherwise a decision opens exactly when the encounter is a collision or an opportunity: the state is unchanged and the decision carries the mover, its destination and its target, or for an opportunity the packed description. That description equals the program's own whenever the generated story does not end in a bar. A quiet move commits the generated narrative at the pending progress |
| `Engine.SkippedTurn` | App.tsx:341-344 | A skip-flagged sect loses its turn whatever the input, replies and roll. It stays put, with the same visits, the flag cleared and the descriptor "停滞"; no decision opens, nobody else changes, and the turn passes on |
| `Engine.Loser` | App.tsx:405 | The loser is the participant other than the winner: the target when the mover wins, and the mover otherwise |
| `Engine.PvpMessage` | App.tsx:410-417 | The collision line opens with the mode's tag ("【联手】在", "【遭遇】在", "【交战】在") and the location. A cooperation ends by naming both sects; a negotiation ends with the loser giving way by the distance; a battle names the winner and ends with the loser falling back by the distance |
| `Engine.Retreat` | App.tsx:419-445 | The loser falls back by the distance from its current progress, never below 0. Its location follows its progress, its visits and history are extended, and its descriptor reads "-d里 (败)". No other sect and nothing else in the state changes |
| `Engine.ResolvePvP` | App.tsx:400-449 | With a target, the decision is discarded and the mover commits at its pending progress. A cooperation moves nobody else; a battle or negotiation also moves the loser back. One log entry is added and the scheduler advances. Without a decision or a target nothing happens |
| `Engine.OpportunityProgress` | App.tsx:457-463 | The final progress stays on the track. A forward success adds the distance, and everything else subtracts it, whenever the result lies on the track; an overshoot past the goal gives exactly 120 and an undershoot below the start exactly 0; a forward success never ends behind the pending point, and anything else never ends ahead of it |
| `Engine.OpportunityMessage` | App.tsx:466-470 | The opportunity line opens with "【机遇】在" and the location, then contains the sect, 大吉 or 大凶, 前行 or 后退, the distance and the final waypoint. It ends with the final waypoint when nothing extra was applied, and otherwise with "，下回合停滞", "，再行一程" or both in that order |
| `Engine.RewardStage` | App.tsx:472-490 | The stat and skip update adds each delta to its stat and sets the skip flag when asked for, keeping it otherwise; no other field, no other sect and nothing else in the game changes |
| `Engine.ResolveOpportunity` | App.tsx:451-494 | The decision is discarded. The mover ends at the clamped progress under that waypoint's name, with each stat plus its delta and the skip flag set if asked for (otherwise kept). Its visit is noted, its descriptor is that of the move from its old progress (marked when it acts again), and the opportunity line, day-stamped, is its one new history line and the one new 'move' log entry. Nothing else about it and nobody else changes. The turn queue is kept. An extra action keeps turn, day and weather and leaves the day open; otherwise the scheduler advances |
| `Invariants.InitializeValid` | App.tsx:192-224 | A new game whose order is a permutation of the seven sects starts consistent |
| `Invariants.CommitPreserves` | App.tsx:496-553 | A commit at a progress on the track, under that waypoint's name, keeps the game consistent and only appends to histories, visited lists and the log |
| `Invariants.RetreatPreserves` | App.tsx:419-445 | A retreat by a non-negative distance keeps the game consistent and only appends |
| `Invariants.StatEditPreserves` | App.tsx:318-329 | A stat edit keeps the game consistent |
| `Invariants.TurnStartPreserves` | App.tsx:335-398 | With a non-negative input, the start of a turn keeps the session consistent: a committed move stays on the track, and an opened decision belongs to the active sect and has a well-formed destination and target |
| `Invariants.ResolvePvPPreserves` | App.tsx:400-449 | With a non-negative distance, resolving a collision keeps the session consistent and only appends |
| `Invariants.ResolveOpportunityPreserves` | App.tsx:451-494 | Resolving an opportunity keeps the session consistent for any distance, because the final progress is clamped on both sides |

A consistent game (`Invariants.Valid`) meets all of these conditions:
- the turn queue is a permutation of the seven sects;
- the active index lies inside the queue;
- every sect has a state, and every progress lies in 0..120;
- every location name is the one derived from the sect's progress;
- every visited list is duplicate-free and contains both the start and the current location.

## Left out

- The path geometry and marker placement (App.tsx:64-109) are left out. They are drawing only and never affect the game state.
- Rendering, the setup screen, image uploads, and saving or loading the game as a file are left out. They are UI and file I/O.
- The generator's prompts and the network call are left out. A reply is modelled as offline, failed, or the returned text; the prompt text only shapes what the generator writes.
- `Math.random` is replaced by inputs. The opening weather is `Engine.Initialize`'s `weather` parameter. The weather of each new day is the `freshWeather` parameter, and the 70% roll is `roll`. The scenario pick (services/geminiService.ts:138) only shapes the prompt, so it is absorbed into the generator's reply.
- The `loading` flag and the `async` sequencing of handleTurnStart are left out. The model treats a turn start as one atomic step.
- The `parseInt(x) || 0` reading of the DM's text boxes is left out. The model takes the integer that results, which may be negative.
- Numbers in the model are unbounded integers, while the source's are JavaScript doubles. Every path that sets a progress (typed integers, `Math.min`, `Math.max`) keeps it a whole number, so the model agrees with the source as long as every DM input and every sum or difference of them stays below 2^53 in magnitude (exact double arithmetic) and below 1e21 (where `${n}` switches to exponent form, e.g. "-1e+21里 (败)"). Larger inputs are not modelled. The waypoint lookup (`Locations`) takes a real progress, mirroring `Math.floor`; everything else is integer.
- Engine.TurnStart: stores the opportunity description from the corrected packing (`Narrative.GenerateOpportunityEvent`), not the program's own. The two differ only when the trimmed story field of the reply ends in a bar (see Findings); its contract states both the corrected description and the agreement with the program's description in every other case.
- The customization fields of the game state (map background, path and images) are left out. No modelled operation reads them.
- Narrative.OpportunityRoundTrip: requires a weather label without the delimiter. The labels come from the WEATHERS list in constants.ts, which is not part of this model; the story fallback embeds the label, so a label containing "|||" would split the packed description.
- Invariants.TurnStartPreserves: requires a non-negative input, because the source caps the pending progress only at the goal, so a negative input can move a sect below 0.
- Invariants.ResolvePvPPreserves: requires a non-negative distance, because the source clamps the loser's retreat only at 0, so a negative distance can push the loser past the goal.
- Invariants.RetreatPreserves: requires a non-negative distance, for the same reason.

## Findings

| source | as written | input that shows it | evidently intended | confidence | as-written member | corrected member |
|---|---|---|---|---|---|---|
| services/geminiService.ts:168 | The story and the notes are packed as story, delimiter, notes, and the dialog splits that text again (App.tsx:824-826). A trimmed story that ends in a bar merges with the delimiter, so the split happens one character early | The generator reply T&#124;&#124;&#124;D&#124; gives the story D&#124;, which is packed as D&#124;&#124;&#124;&#124;请DM自行裁决。 and shown as the story D with the notes &#124;请DM自行裁决。 | The dialog shows the same story and notes that the service produced | not executed | `Narrative.AsWrittenPackMisreads` | `Narrative.OpportunityRoundTrip` |

The corrected service (`Narrative.OpportunityFields`) drops the trailing bars
from the story before packing. The engine uses the corrected version.

=== FILE: commit.dfy ===
/** Turn commit and the turn/day scheduler (App.tsx `commitTurn`): the one
    place where a sect's move is recorded and the turn passes on. */
module TurnCommit {
  import opened Text
  import opened Types

  predicate Distinct<T(==)>(xs: seq<T>) {
    forall i, j :: 0 <= i < j < |xs| ==> xs[i] != xs[j]
  }

  /** A history line stamped with the day: "[第{day}日] {content}". */
  function DayStamp(day: int, content: string): (r: string)
    ensures "[第" <= r
    ensures |r| >= |content| + 6 && r[|r| - |content|..] == content
    ensures var d := r[2..|r| - |content| - 3];
            r[|r| - |content| - 3..|r| - |content|] == "日] " && IsDecimal(d) && ParseDecimal(d) == day
  {
    var d := IntToDecimal(day);
    var r := "[第" + d + "日] " + content;
    IntDecimalRoundTrip(day);
    assert r[2..|r| - |content| - 3] == d;
    r
  }

  /** The visited list after arriving at `name` from `current`: the name is
      appended only if it is a different place that has not been seen yet. */
  function NoteVisit(visited: seq<string>, current: string, name: string): (r: seq<string>)
    ensures visited <= r && |r| <= |visited| + 1
    ensures forall x :: x in r <==> x in visited || (x == name && name != current)
    ensures Distinct(visited) ==> Distinct(r)
  {
    if name != current && name !in visited then visited + [name] else visited
  }

  // ---------------------------------------------------------------------------
  // the move descriptor

  const Stalled: string := "停滞"

  /** The mark of an extra action. */
  const AgainMark: string := " (连动)"

  /** The summary of a commit: "停滞" for a consumed skip, otherwise the signed
      distance ("+5里", "-3里") or "原地"; " (连动)" marks an extra action. */
  function MoveDescriptor(delta: int, wasSkipped: bool, actionAgain: bool): (r: string)
    ensures wasSkipped && !actionAgain ==> r == Stalled
    ensures wasSkipped ==> Stalled <= r
    ensures !wasSkipped && delta == 0 ==> "原地" <= r
    ensures !wasSkipped && !actionAgain && delta == 0 ==> r == "原地"
    ensures |r| > 0
    ensures !wasSkipped ==> (r[0] == '+' <==> delta > 0) && (r[0] == '-' <==> delta < 0)
    ensures actionAgain <==> EndsWith(r, AgainMark)
  {
    var base :=
      if wasSkipped then Stalled
      else if delta > 0 then "+" + IntToDecimal(delta) + "里"
      else if delta < 0 then IntToDecimal(delta) + "里"
      else "原地";
    assert base[|base| - 1] != ')';
    if actionAgain then base + AgainMark else base
  }

  /** An extra action only appends its mark to the descriptor the move would
      have had anyway. */
  lemma ExtraActionMark(delta: int, wasSkipped: bool)
    ensures MoveDescriptor(delta, wasSkipped, true) == MoveDescriptor(delta, wasSkipped, false) + AgainMark
  {
  }

  /** A plain descriptor of a move shows the distance moved: it ends in '里',
      and the numeral before it (after the '+' of a forward move) reads back
      as the signed distance. */
  lemma DescriptorReadsBack(delta: int)
    requires delta != 0
    ensures var r := MoveDescriptor(delta, false, false);
            var numeral := if delta > 0 then r[1..|r| - 1] else r[..|r| - 1];
            && r[|r| - 1] == '里'
            && IsDecimal(numeral) && ParseDecimal(numeral) == delta
  {
    var r := MoveDescriptor(delta, false, false);
    IntDecimalRoundTrip(delta);
    if delta > 0 {
      assert r[1..|r| - 1] == IntToDecimal(delta);
    } else {
      assert r[..|r| - 1] == IntToDecimal(delta);
    }
  }

  /** Without skip or extra action, the descriptor tells moves of different
      lengths apart. */
  lemma MoveDescriptorInjective(d1: int, d2: int)
    requires MoveDescriptor(d1, false, false) == MoveDescriptor(d2, false, false)
    ensures d1 == d2
  {
    if d1 != 0 && d2 != 0 {
      DescriptorReadsBack(d1);
      DescriptorReadsBack(d2);
    }
  }

  // ---------------------------------------------------------------------------
  // the scheduler

  datatype Schedule = Schedule(activeIndex: int, day: int, weather: string, isDayComplete: bool)

  /** The scheduler step of a commit. Without an extra action the turn passes
      to the next sect in the queue; passing the last one starts a new day with
      fresh weather. An extra action keeps turn, day and weather. */
  function Advance(s: Schedule, queueLength: int, actionAgain: bool, freshWeather: string): (r: Schedule)
    ensures actionAgain ==> r == s.(isDayComplete := false)
    ensures !actionAgain ==> (r.isDayComplete <==> s.activeIndex + 1 >= queueLength)
    ensures r.isDayComplete ==> r.activeIndex == 0 && r.day == s.day + 1 && r.weather == freshWeather
    ensures !r.isDayComplete ==> r.day == s.day && r.weather == s.weather
    ensures !actionAgain && !r.isDayComplete ==> r.activeIndex == s.activeIndex + 1
    ensures 0 <= s.activeIndex < queueLength ==> 0 <= r.activeIndex < queueLength
  {
    if actionAgain then Schedule(s.activeIndex, s.day, s.weather, false)
    else if s.activeIndex + 1 >= queueLength then Schedule(0, s.day + 1, freshWeather, true)
    else Schedule(s.activeIndex + 1, s.day, s.weather, false)
  }

  /** k consecutive ordinary commits. */
  function AdvanceTimes(s: Schedule, queueLength: int, k: nat, freshWeather: string): Schedule {
    if k == 0 then s else Advance(AdvanceTimes(s, queueLength, k - 1, freshWeather), queueLength, false, freshWeather)
  }

  /** Within a day, each ordinary commit hands the turn to the next sect. */
  lemma {:induction false} PartialRound(day: int, weather: string, n: int, k: nat, freshWeather: string)
    requires k < n
    ensures AdvanceTimes(Schedule(0, day, weather, false), n, k, freshWeather) == Schedule(k, day, weather, false)
  {
    if k > 0 {
      PartialRound(day, weather, n, k - 1, freshWeather);
    }
  }

  /** A full round of ordinary commits, one per sect of the queue, returns the
      turn to the first sect and advances the day by exactly one. */
  lemma FullRound(day: int, weather: string, n: int, freshWeather: string)
    requires n >= 1
    ensures AdvanceTimes(Schedule(0, day, weather, false), n, n, freshWeather)
            == Schedule(0, day + 1, freshWeather, true)
  {
    PartialRound(day, weather, n, n - 1, freshWeather);
  }

  // ---------------------------------------------------------------------------
  // commit

  function ScheduleOf(g: GameState): Schedule {
    Schedule(g.activeIndex, g.day, g.weather, g.isDayComplete)
  }

  /** Records a resolved turn of sect `id`: its new progress and location, the
      visited list, the descriptor, the consumed skip, one day-stamped history
      line and one global 'move' entry; then the scheduler step. */
  function Commit(g: GameState, id: SectId, progress: int, locName: string, logContent: string,
                  wasSkipped: bool, actionAgain: bool, freshWeather: string): (r: GameState)
    requires id in g.sects
    ensures r.sects.Keys == g.sects.Keys
    ensures forall other :: other in g.sects && other != id ==> r.sects[other] == g.sects[other]
    ensures var before, after := g.sects[id], r.sects[id];
            && after.id == before.id && after.stats == before.stats
            && after.progress == progress && after.locationName == locName
            && after.visited == NoteVisit(before.visited, before.locationName, locName)
            && after.lastMoveDesc == MoveDescriptor(progress - before.progress, wasSkipped, actionAgain)
            && after.skipNextTurn == (before.skipNextTurn && !wasSkipped)
            && after.history == before.history + [DayStamp(g.day, logContent)]
    ensures r.log == g.log + [LogEntry(g.day, logContent, Move)]
    ensures r.turnQueue == g.turnQueue
    ensures ScheduleOf(r) == Advance(ScheduleOf(g), |g.turnQueue|, actionAgain, freshWeather)
  {
    var before := g.sects[id];
    var after := before.(
      progress := progress,
      locationName := locName,
      visited := NoteVisit(before.visited, before.locationName, locName),
      lastMoveDesc := MoveDescriptor(progress - before.progress, wasSkipped, actionAgain),
      skipNextTurn := if wasSkipped then false else before.skipNextTurn,
      history := before.history + [DayStamp(g.day, logContent)]);
    var next := Advance(ScheduleOf(g), |g.turnQueue|, actionAgain, freshWeather);
    g.(day := next.day, weather := next.weather, activeIndex := next.activeIndex,
       isDayComplete := next.isDayComplete,
       sects := g.sects[id := after],
       log := g.log + [LogEntry(g.day, logContent, Move)])
  }
}

=== FILE: engine.dfy ===
/** The turn engine (App.tsx): game set-up, direct stat edits, turn start with
    encounter detection, and the DM's resolution of a collision or an
    opportunity. Randomness, the DM's inputs and the generator's replies are
    parameters; each operation is a pure transition of the session. */
module Engine {
  import opened Options
  import opened Text
  import opened Types
  import opened Locations
  import opened Narrative
  import opened TurnCommit

  /** The game together with the decision, if any, awaiting the DM. */
  datatype Session = Session(game: GameState, pending: Option<Interaction>)

  datatype PvpMode = Battle | Negotiate | Coop

  datatype Direction = Forward | Backward

  // ---------------------------------------------------------------------------
  // set-up and direct edits

  const StartStats: Stats := Stats(20, 20, 20, 0)

  const OpeningLine: string := "七曜同宫，逆鳞现世。七大门派整装待发。"

  function InitialSect(id: SectId, startName: string): SectState {
    SectState(id, 0, startName, StartStats, [], [startName], "蓄势待发", false)
  }

  /** A new game: every sect of the order at the start location with the
      starting stats, day 1, the first sect of the order to move. */
  function Initialize(catalog: Catalog, order: seq<SectId>, weather: string): (g: GameState)
    requires |catalog.locations| > 0
    ensures g.day == 1 && g.activeIndex == 0 && !g.isDayComplete
    ensures g.turnQueue == order && g.weather == weather
    ensures g.sects.Keys == set id | id in order
    ensures forall id :: id in g.sects ==>
              && g.sects[id].id == id && g.sects[id].progress == 0
              && g.sects[id].locationName == catalog.locations[0].name
              && g.sects[id].visited == [catalog.locations[0].name]
              && g.sects[id].history == [] && !g.sects[id].skipNextTurn
              && g.sects[id].stats == Stats(20, 20, 20, 0)
              && g.sects[id].lastMoveDesc == "蓄势待发"
    ensures g.log == [LogEntry(1, OpeningLine, System)]
  {
    var startName := NameAt(catalog.locations, 0);
    assert startName == catalog.locations[0].name by {
      assert LocationIndex(0 as real) == 0;
    }
    GameState(1, weather, 0, order, false,
              map id | id in order :: InitialSect(id, startName),
              [LogEntry(1, OpeningLine, System)])
  }

  /** The DM's manual correction: one stat of one sect is overwritten, with no
      history line and no log entry. */
  function StatEdit(g: GameState, id: SectId, name: StatName, value: int): (r: GameState)
    requires id in g.sects
    ensures r.sects.Keys == g.sects.Keys
    ensures r.sects[id].stats.Get(name) == value
    ensures forall other :: other != name ==> r.sects[id].stats.Get(other) == g.sects[id].stats.Get(other)
    ensures r.sects[id] == g.sects[id].(stats := r.sects[id].stats)
    ensures forall other :: other in g.sects && other != id ==> r.sects[other] == g.sects[other]
    ensures r == g.(sects := r.sects)
  {
    var st := g.sects[id];
    g.(sects := g.sects[id := st.(stats := st.stats.With(name, value))])
  }

  // ---------------------------------------------------------------------------
  // turn start

  /** The state turn start reads: the active index lies in the queue and every
      queued sect has a state. */
  predicate Ready(g: GameState) {
    && 0 <= g.activeIndex < |g.turnQueue|
    && forall id :: id in g.turnQueue ==> id in g.sects
  }

  /** The progress a move reaches: capped at the goal, never clamped below. */
  function PendingProgress(progress: int, input: int): (p: int)
    ensures p <= GoalProgress
    ensures p == progress + input || (p == GoalProgress && progress + input > GoalProgress)
    ensures 0 <= progress && 0 <= input ==> 0 <= p
  {
    MinInt(GoalProgress, progress + input)
  }

  /** Sect `id` is another sect standing at the location called `name`. */
  predicate Meets(sects: map<SectId, SectState>, mover: SectId, name: string, id: SectId) {
    id != mover && id in sects && sects[id].locationName == name
  }

  /** The position of the first sect in `order`, from k on, that `mover` meets
      at `name`. */
  function FirstMeeting(order: seq<SectId>, sects: map<SectId, SectState>, mover: SectId, name: string, k: nat): (r: Option<nat>)
    requires k <= |order|
    ensures r.Some? ==> k <= r.value < |order| && Meets(sects, mover, name, order[r.value])
    ensures r.Some? ==> forall j :: k <= j < r.value ==> !Meets(sects, mover, name, order[j])
    ensures r.None? ==> forall j :: k <= j < |order| ==> !Meets(sects, mover, name, order[j])
    decreases |order| - k
  {
    if k == |order| then None
    else if Meets(sects, mover, name, order[k]) then Some(k)
    else FirstMeeting(order, sects, mover, name, k + 1)
  }

  /** What a move runs into. */
  datatype Encounter = Collision(other: SectId) | Chance | Quiet

  /** The encounter detector. Strictly between start and goal, the first other
      sect, in sect-key order, already at the destination is a collision; the
      termini are exempt. Otherwise a won roll (70%) is an opportunity. */
  function Classify(order: seq<SectId>, sects: map<SectId, SectState>, mover: SectId,
                    pending: int, dest: string, roll: bool): (e: Encounter)
    ensures e.Collision? ==> 0 < pending < GoalProgress
    ensures e.Collision? ==> exists k :: 0 <= k < |order| && order[k] == e.other
                                        && Meets(sects, mover, dest, e.other)
                                        && forall j :: 0 <= j < k ==> !Meets(sects, mover, dest, order[j])
    ensures !e.Collision? && 0 < pending < GoalProgress ==>
              forall id :: id in order ==> !Meets(sects, mover, dest, id)
    ensures e.Chance? <==> roll && !e.Collision?
  {
    var hit := if 0 < pending < GoalProgress then FirstMeeting(order, sects, mover, dest, 0) else None;
    if hit.Some? then Collision(order[hit.value])
    else if roll then Chance
    else Quiet
  }

  function ActiveId(g: GameState): SectId
    requires 0 <= g.activeIndex < |g.turnQueue|
  {
    g.turnQueue[g.activeIndex]
  }

  const SkipLead: string := "【停滞】受前事影响，"
  const SkipTail: string := " 本回合无法行动。"

  /** The log line of a lost turn: the sect's name between a fixed lead and
      a fixed tail, so it reads back from the line. */
  function SkipMessage(catalog: Catalog, id: SectId): (r: string)
    ensures SkipLead <= r && EndsWith(r, SkipTail)
    ensures |r| == |SkipLead| + |catalog.sectName(id)| + |SkipTail|
    ensures r[|SkipLead|..|r| - |SkipTail|] == catalog.sectName(id)
  {
    ThreePieces(SkipLead, catalog.sectName(id), SkipTail);
    SkipLead + catalog.sectName(id) + SkipTail
  }

  /** A turn of the active sect. A skip-flagged sect commits in place at once,
      consuming the flag. Otherwise its pending progress is computed and the
      encounter detector decides: a collision or an opportunity suspends the
      turn on a decision for the DM, and a quiet move commits directly. */
  function TurnStart(g: GameState, catalog: Catalog, input: int, moveReply: Reply, conflictReply: Reply,
                     opportunityReply: Reply, roll: bool, freshWeather: string): (s: Session)
    requires Ready(g) && |catalog.locations| > 0
    ensures var id := ActiveId(g); var a := g.sects[id];
            a.skipNextTurn ==>
              s == Session(Commit(g, id, a.progress, a.locationName, SkipMessage(catalog, id), true, false, freshWeather), None)
    ensures var id := ActiveId(g); var a := g.sects[id];
            var p := PendingProgress(a.progress, input); var dest := NameAt(catalog.locations, p);
            var e := Classify(g.turnQueue, g.sects, id, p, dest, roll);
            !a.skipNextTurn ==>
              && (s.pending.Some? <==> !e.Quiet?)
              && (s.pending.Some? ==>
                    && s.game == g
                    && s.pending.value.active == id
                    && s.pending.value.pendingProgress == p
                    && s.pending.value.locationName == dest
                    && (s.pending.value.kind == Pvp <==> e.Collision?)
                    && (e.Collision? ==> s.pending.value.target == Some(e.other)
                                         && s.pending.value.description == GenerateConflictNarrative(conflictReply))
                    && (e.Chance? ==> s.pending.value.target == None
                                      && s.pending.value.description
                                         == GenerateOpportunityEvent(opportunityReply, g.weather).description)
                    && (e.Chance? && !EndsWithBar(OpportunityFieldsAsWritten(opportunityReply, g.weather).story) ==>
                          s.pending.value.description
                          == GenerateOpportunityEventAsWritten(opportunityReply, g.weather).description))
              && (s.pending.None? ==>
                    s.game == Commit(g, id, p, dest,
                                     GenerateTurnEvent(moveReply, LocationOf(catalog.locations, p as real), g.weather).eventText,
                                     false, false, freshWeather))
  {
    var id := ActiveId(g);
    var a := g.sects[id];
    if a.skipNextTurn then
      Session(Commit(g, id, a.progress, a.locationName, SkipMessage(catalog, id), true, false, freshWeather), None)
    else
      var p := PendingProgress(a.progress, input);
      var loc := LocationOf(catalog.locations, p as real);
      var narrative := GenerateTurnEvent(moveReply, loc, g.weather).eventText;
      match Classify(g.turnQueue, g.sects, id, p, loc.name, roll)
      case Collision(other) =>
        Session(g, Some(Interaction(Pvp, id, Some(other), loc.name, GenerateConflictNarrative(conflictReply), p)))
      case Chance =>
        Session(g, Some(Interaction(Opportunity, id, None, loc.name,
                                    GenerateOpportunityEvent(opportunityReply, g.weather).description, p)))
      case Quiet =>
        Session(Commit(g, id, p, loc.name, narrative, false, false, freshWeather), None)
  }

  /** A skip-flagged sect loses its turn whatever the DM typed, the generator
      replied or the dice rolled: it stays where it is, the flag is consumed,
      its move reads "停滞", no decision opens, and the turn passes on. */
  lemma SkippedTurn(g: GameState, catalog: Catalog, input1: int, input2: int, move1: Reply, move2: Reply,
                    conflict1: Reply, conflict2: Reply, opp1: Reply, opp2: Reply, roll1: bool, roll2: bool,
                    freshWeather: string)
    requires Ready(g) && |catalog.locations| > 0 && g.sects[ActiveId(g)].skipNextTurn
    ensures var s1 := TurnStart(g, catalog, input1, move1, conflict1, opp1, roll1, freshWeather);
            var s2 := TurnStart(g, catalog, input2, move2, conflict2, opp2, roll2, freshWeather);
            var id := ActiveId(g); var before, after := g.sects[id], s1.game.sects[id];
            && s1 == s2
            && s1.pending.None?
            && after.progress == before.progress && after.locationName == before.locationName
            && after.visited == before.visited
            && !after.skipNextTurn && after.lastMoveDesc == Stalled
            && (forall other :: other in g.sects && other != id ==> s1.game.sects[other] == g.sects[other])
            && ScheduleOf(s1.game) == Advance(ScheduleOf(g), |g.turnQueue|, false, freshWeather)
  {
  }

  // ---------------------------------------------------------------------------
  // PvP resolution

  /** The sect that gives way: the participant other than the winner. */
  function Loser(it: Interaction, winner: SectId): (l: SectId)
    requires it.target.Some?
    ensures l == it.active || l == it.target.value
    ensures winner == it.active ==> l == it.target.value
    ensures winner != it.active ==> l == it.active
  {
    if winner == it.active then it.target.value else it.active
  }

  /** The opening tag of a PvP log line, up to the location. */
  function PvpTag(mode: PvpMode): string {
    match mode
    case Coop => "【联手】在"
    case Negotiate => "【遭遇】在"
    case Battle => "【交战】在"
  }

  /** The log line of a settled collision: it opens with the mode's tag and
      the location; cooperation names both sects, and otherwise the line ends
      with the loser giving way by the distance. */
  function PvpMessage(catalog: Catalog, it: Interaction, winner: SectId, mode: PvpMode, distance: int): (r: string)
    requires it.target.Some?
    ensures PvpTag(mode) + it.locationName <= r
    ensures mode == Coop ==>
              EndsWith(r, catalog.sectName(it.active) + " 与 " + catalog.sectName(it.target.value)
                          + " 摒弃前嫌，联手御敌！双方皆未退让。")
    ensures mode == Negotiate ==>
              EndsWith(r, catalog.sectName(Loser(it, winner)) + " 选择了退让，回撤 " + IntToDecimal(distance) + " 里。")
    ensures mode == Battle ==>
              && Contains(r, " 爆发激战！" + catalog.sectName(winner) + " 胜，")
              && EndsWith(r, catalog.sectName(Loser(it, winner)) + " 败退 " + IntToDecimal(distance) + " 里。")
  {
    var loser := Loser(it, winner);
    var lead := PvpTag(mode) + it.locationName;
    match mode
    case Coop =>
      var x := catalog.sectName(it.active) + " 与 " + catalog.sectName(it.target.value) + " 摒弃前嫌，联手御敌！双方皆未退让。";
      ThreePieces(lead, "，", x);
      lead + "，" + x
    case Negotiate =>
      var x := catalog.sectName(loser) + " 选择了退让，回撤 " + IntToDecimal(distance) + " 里。";
      ThreePieces(lead, "，", x);
      lead + "，" + x
    case Battle =>
      var w := " 爆发激战！" + catalog.sectName(winner) + " 胜，";
      var x := catalog.sectName(loser) + " 败退 " + IntToDecimal(distance) + " 里。";
      ThreePieces(lead, w, x);
      lead + w + x
  }

  /** The losing sect falls back `distance` from its current progress (not
      from the pending value), never below the start. */
  function Retreat(g: GameState, catalog: Catalog, loser: SectId, distance: int, message: string): (r: GameState)
    requires loser in g.sects && |catalog.locations| > 0
    ensures r.sects.Keys == g.sects.Keys
    ensures forall other :: other in g.sects && other != loser ==> r.sects[other] == g.sects[other]
    ensures var before, after := g.sects[loser], r.sects[loser];
            && after.progress == MaxInt(0, before.progress - distance)
            && after.locationName == NameAt(catalog.locations, after.progress)
            && after.visited == NoteVisit(before.visited, before.locationName, after.locationName)
            && after.history == before.history + [DayStamp(g.day, message)]
            && after.lastMoveDesc == "-" + IntToDecimal(distance) + "里 (败)"
            && after == before.(progress := after.progress, locationName := after.locationName,
                                visited := after.visited, history := after.history,
                                lastMoveDesc := after.lastMoveDesc)
    ensures r == g.(sects := r.sects)
  {
    var before := g.sects[loser];
    var p := MaxInt(0, before.progress - distance);
    var name := NameAt(catalog.locations, p);
    var after := before.(
      progress := p,
      locationName := name,
      visited := NoteVisit(before.visited, before.locationName, name),
      lastMoveDesc := "-" + IntToDecimal(distance) + "里 (败)",
      history := before.history + [DayStamp(g.day, message)]);
    g.(sects := g.sects[loser := after])
  }

  /** The first state update of a PvP resolution: the loser's retreat, or
      nothing for cooperation. */
  function PvpRetreatStage(g: GameState, catalog: Catalog, it: Interaction, winner: SectId, mode: PvpMode,
                           distance: int): GameState
    requires it.target.Some? && Loser(it, winner) in g.sects && |catalog.locations| > 0
  {
    if mode == Coop then g
    else Retreat(g, catalog, Loser(it, winner), distance, PvpMessage(catalog, it, winner, mode, distance))
  }

  /** The interaction's sects have states. */
  predicate Resolvable(s: Session) {
    s.pending.Some? ==>
      && s.pending.value.active in s.game.sects
      && (s.pending.value.target.Some? ==> s.pending.value.target.value in s.game.sects)
  }

  /** The DM settles a collision. In a battle or a negotiation the loser
      retreats; cooperation moves no one. Either way the acting sect then
      commits at its pending progress, and the decision is discarded. With no
      decision pending, or one without a target, nothing happens. */
  function ResolvePvP(s: Session, catalog: Catalog, winner: SectId, mode: PvpMode, distance: int,
                      freshWeather: string): (r: Session)
    requires Resolvable(s) && |catalog.locations| > 0
    ensures s.pending.None? || s.pending.value.target.None? ==> r == s
    ensures s.pending.Some? && s.pending.value.target.Some? ==>
              var it, g := s.pending.value, s.game; var loser := Loser(it, winner);
              && r.pending.None?
              && r.game.sects.Keys == g.sects.Keys
              && r.game.sects[it.active].progress == it.pendingProgress
              && r.game.sects[it.active].locationName == it.locationName
              && (forall other :: other in g.sects && other != it.active && other != loser ==>
                    r.game.sects[other] == g.sects[other])
              && (mode == Coop ==> forall other :: other in g.sects && other != it.active ==>
                    r.game.sects[other] == g.sects[other])
              && (mode != Coop && loser != it.active ==>
                    r.game.sects[loser].progress == MaxInt(0, g.sects[loser].progress - distance)
                    && r.game.sects[loser].history
                       == g.sects[loser].history + [DayStamp(g.day, PvpMessage(catalog, it, winner, mode, distance))])
              && r.game.log == g.log + [LogEntry(g.day, PvpMessage(catalog, it, winner, mode, distance), Move)]
              && ScheduleOf(r.game) == Advance(ScheduleOf(g), |g.turnQueue|, false, freshWeather)
  {
    match s.pending
    case None => s
    case Some(it) =>
      if it.target.None? then s
      else
        var message := PvpMessage(catalog, it, winner, mode, distance);
        var g1 := PvpRetreatStage(s.game, catalog, it, winner, mode, distance);
        Session(Commit(g1, it.active, it.pendingProgress, it.locationName, message, false, false, freshWeather), None)
  }

  // ---------------------------------------------------------------------------
  // opportunity resolution

  /** Where an opportunity leaves the sect: forward by the distance on a
      forward success, back by it otherwise, clamped to the track. */
  function OpportunityProgress(pending: int, success: bool, reward: Direction, distance: int): (p: int)
    ensures 0 <= p <= GoalProgress
    ensures success && reward == Forward && 0 <= pending + distance <= GoalProgress ==> p == pending + distance
    ensures !(success && reward == Forward) && 0 <= pending - distance <= GoalProgress ==> p == pending - distance
    ensures success && reward == Forward && 0 <= distance && 0 <= pending ==> p >= MinInt(pending, GoalProgress)
    ensures !(success && reward == Forward) && 0 <= distance && pending <= GoalProgress ==> p <= MaxInt(pending, 0)
    ensures success && reward == Forward && pending + distance > GoalProgress ==> p == GoalProgress
    ensures success && reward == Forward && pending + distance < 0 ==> p == 0
    ensures !(success && reward == Forward) && pending - distance > GoalProgress ==> p == GoalProgress
    ensures !(success && reward == Forward) && pending - distance < 0 ==> p == 0
  {
    var moved := if success && reward == Forward then pending + distance else pending - distance;
    MaxInt(0, MinInt(GoalProgress, moved))
  }

  /** The extras the DM applied, each after a comma, skip first. */
  function ExtrasTail(applySkip: bool, applyAgain: bool): (t: string)
    ensures !applySkip && !applyAgain ==> t == ""
    ensures applySkip && !applyAgain ==> t == "，下回合停滞"
    ensures !applySkip && applyAgain ==> t == "，再行一程"
    ensures applySkip && applyAgain ==> t == "，下回合停滞，再行一程"
  {
    var extras := (if applySkip then ["下回合停滞"] else []) + (if applyAgain then ["再行一程"] else []);
    if |extras| == 0 then "" else if |extras| == 1 then "，" + extras[0] else "，" + extras[0] + "，" + extras[1]
  }

  /** The log line of a settled opportunity: tag and location, then the sect,
      its fortune, the direction, the distance and where it ended up, then the
      extras the DM applied, in the order skip, extra action. */
  function OpportunityMessage(catalog: Catalog, it: Interaction, success: bool, distance: int, finalName: string,
                              applySkip: bool, applyAgain: bool): (r: string)
    ensures "【机遇】在" + it.locationName + "，" <= r
    ensures Contains(r, catalog.sectName(it.active) + " " + (if success then "大吉" else "大凶") + "。"
                        + (if success then "前行" else "后退") + " " + IntToDecimal(distance) + " 里，至" + finalName)
    ensures !applySkip && !applyAgain ==> EndsWith(r, finalName + "。")
    ensures applySkip && !applyAgain ==> EndsWith(r, "，下回合停滞。")
    ensures !applySkip && applyAgain ==> EndsWith(r, "，再行一程。")
    ensures applySkip && applyAgain ==> EndsWith(r, "，下回合停滞，再行一程。")
  {
    var lead := "【机遇】在" + it.locationName + "，";
    var head := catalog.sectName(it.active) + " " + (if success then "大吉" else "大凶") + "。"
                + (if success then "前行" else "后退") + " " + IntToDecimal(distance) + " 里，至";
    var end := ExtrasTail(applySkip, applyAgain) + "。";
    ThreePieces(lead, head + finalName, end);
    if !applySkip && !applyAgain then
      assert end == "。";
      EndsWithAppend(head, finalName);
      EndsWithExtend(lead, head + finalName, finalName);
      EndsWithGrow(lead + (head + finalName), finalName, "。");
      lead + (head + finalName) + end
    else if !applyAgain then
      assert end == "，下回合停滞。";
      lead + (head + finalName) + end
    else if !applySkip then
      assert end == "，再行一程。";
      lead + (head + finalName) + end
    else
      assert end == "，下回合停滞，再行一程。";
      lead + (head + finalName) + end
  }

  /** The first state update of an opportunity resolution: the stat deltas
      are added to the sect's stats, and its skip flag is set if asked for and
      otherwise kept; nothing else changes. */
  function RewardStage(g: GameState, id: SectId, delta: Stats, applySkip: bool): (r: GameState)
    requires id in g.sects
    ensures r.sects.Keys == g.sects.Keys
    ensures var before, after := g.sects[id], r.sects[id];
            && (forall n :: after.stats.Get(n) == before.stats.Get(n) + delta.Get(n))
            && (applySkip ==> after.skipNextTurn)
            && (!applySkip ==> after.skipNextTurn == before.skipNextTurn)
            && after == before.(stats := after.stats, skipNextTurn := after.skipNextTurn)
    ensures forall other :: other in g.sects && other != id ==> r.sects[other] == g.sects[other]
    ensures r == g.(sects := r.sects)
  {
    var st := g.sects[id];
    g.(sects := g.sects[id := st.(stats := st.stats.Plus(delta), skipNextTurn := applySkip || st.skipNextTurn)])
  }

  /** The DM settles an opportunity: the stat deltas are added, the skip flag
      is set if asked for (and otherwise kept), and the acting sect commits at
      the resulting progress; an extra action keeps the turn. With no decision
      pending nothing happens. */
  function ResolveOpportunity(s: Session, catalog: Catalog, success: bool, reward: Direction, distance: int,
                              delta: Stats, applySkip: bool, applyAgain: bool, freshWeather: string): (r: Session)
    requires Resolvable(s) && |catalog.locations| > 0
    ensures s.pending.None? ==> r == s
    ensures s.pending.Some? ==> r.pending.None? && r.game.sects.Keys == s.game.sects.Keys
    ensures r.game.turnQueue == s.game.turnQueue
    ensures s.pending.Some? ==>
              var it, g := s.pending.value, s.game;
              var before, after := g.sects[it.active], r.game.sects[it.active];
              && after.progress == OpportunityProgress(it.pendingProgress, success, reward, distance)
              && after.locationName == NameAt(catalog.locations, after.progress)
              && (forall n :: after.stats.Get(n) == before.stats.Get(n) + delta.Get(n))
              && after.skipNextTurn == (applySkip || before.skipNextTurn)
              && after.history == before.history + [DayStamp(g.day, OpportunityMessage(catalog, it, success, distance,
                                                                  after.locationName, applySkip, applyAgain))]
              && r.game.log == g.log + [LogEntry(g.day, OpportunityMessage(catalog, it, success, distance,
                                                                            after.locationName, applySkip, applyAgain), Move)]
              && after.visited == NoteVisit(before.visited, before.locationName, after.locationName)
              && after.lastMoveDesc == MoveDescriptor(after.progress - before.progress, false, applyAgain)
              && after == before.(progress := after.progress, locationName := after.locationName,
                                  visited := after.visited, lastMoveDesc := after.lastMoveDesc,
                                  stats := after.stats, skipNextTurn := after.skipNextTurn,
                                  history := after.history)
              && (forall other :: other in g.sects && other != it.active ==> r.game.sects[other] == g.sects[other])
              && (applyAgain ==> r.game.activeIndex == g.activeIndex && r.game.day == g.day
                                 && r.game.weather == g.weather && !r.game.isDayComplete)
              && (!applyAgain ==> ScheduleOf(r.game) == Advance(ScheduleOf(g), |g.turnQueue|, false, freshWeather))
  {
    match s.pending
    case None => s
    case Some(it) =>
      var p := OpportunityProgress(it.pendingProgress, success, reward, distance);
      var finalName := NameAt(catalog.locations, p);
      var message := OpportunityMessage(catalog, it, success, distance, finalName, applySkip, applyAgain);
      var g1 := RewardStage(s.game, it.active, delta, applySkip);
      Session(Commit(g1, it.active, p, finalName, message, false, applyAgain, freshWeather), None)
  }
}

=== FILE: invariants.dfy ===
/** The documented invariants of the game state (progress on the track,
    location derived from progress, duplicate-free visited lists keeping the
    start, a complete faction store, an active index inside the turn queue),
    and proofs that every operation preserves them and only ever appends to
    histories, visited lists and the global log. */
module Invariants {
  import opened Options
  import opened Types
  import opened Locations
  import opened Narrative
  import opened TurnCommit
  import opened Engine

  /** One sect's record is consistent. */
  predicate SectValid(catalog: Catalog, id: SectId, st: SectState)
    requires |catalog.locations| > 0
  {
    && st.id == id
    && 0 <= st.progress <= GoalProgress
    && st.locationName == NameAt(catalog.locations, st.progress)
    && Distinct(st.visited)
    && catalog.locations[0].name in st.visited
    && st.locationName in st.visited
  }

  /** The turn queue is a fixed permutation of the seven sects. */
  predicate IsPermutation(queue: seq<SectId>) {
    Distinct(queue) && forall id: SectId :: id in queue
  }

  /** The whole game state is consistent. */
  predicate Valid(catalog: Catalog, g: GameState) {
    && |catalog.locations| > 0
    && g.day >= 1
    && IsPermutation(g.turnQueue)
    && 0 <= g.activeIndex < |g.turnQueue|
    && forall id: SectId :: id in g.sects && SectValid(catalog, id, g.sects[id])
  }

  /** A pending decision belongs to the sect whose turn it is, carries a
      destination on the track with its derived name, and names a target
      other than the mover exactly when it is a PvP decision. */
  predicate PendingValid(catalog: Catalog, g: GameState, it: Interaction)
    requires Valid(catalog, g)
  {
    && it.active == ActiveId(g)
    && 0 <= it.pendingProgress <= GoalProgress
    && it.locationName == NameAt(catalog.locations, it.pendingProgress)
    && (it.kind == Pvp <==> it.target.Some?)
    && (it.target.Some? ==> it.target.value != it.active)
  }

  predicate SessionValid(catalog: Catalog, s: Session) {
    Valid(catalog, s.game) && (s.pending.Some? ==> PendingValid(catalog, s.game, s.pending.value))
  }

  /** r only appends to g: same sects and queue, no day goes back, and every
      history, visited list and the global log of g is a prefix of r's. */
  predicate Extends(g: GameState, r: GameState) {
    && r.sects.Keys == g.sects.Keys
    && r.turnQueue == g.turnQueue
    && g.day <= r.day
    && g.log <= r.log
    && forall id :: id in g.sects ==>
         g.sects[id].history <= r.sects[id].history && g.sects[id].visited <= r.sects[id].visited
  }

  // ---------------------------------------------------------------------------

  /** A new game with a permutation for its order starts consistent. */
  lemma InitializeValid(catalog: Catalog, order: seq<SectId>, weather: string)
    requires |catalog.locations| > 0 && IsPermutation(order)
    ensures SessionValid(catalog, Session(Initialize(catalog, order, weather), None))
  {
    var g := Initialize(catalog, order, weather);
    assert LocationIndex(0 as real) == 0;
    assert Tianhe in order;
    forall id: SectId
      ensures id in g.sects && SectValid(catalog, id, g.sects[id])
    {
      assert id in order;
    }
  }

  /** A commit at a progress on the track, under that progress's name, keeps
      the state consistent and only appends. */
  lemma CommitPreserves(catalog: Catalog, g: GameState, id: SectId, progress: int, logContent: string,
                        wasSkipped: bool, actionAgain: bool, freshWeather: string)
    requires Valid(catalog, g)
    requires 0 <= progress <= GoalProgress
    ensures var r := Commit(g, id, progress, NameAt(catalog.locations, progress), logContent,
                            wasSkipped, actionAgain, freshWeather);
            Valid(catalog, r) && Extends(g, r)
  {
    var name := NameAt(catalog.locations, progress);
    var r := Commit(g, id, progress, name, logContent, wasSkipped, actionAgain, freshWeather);
    var before, after := g.sects[id], r.sects[id];
    assert before.locationName in before.visited;
    assert SectValid(catalog, id, after);
    forall other: SectId
      ensures other in r.sects && SectValid(catalog, other, r.sects[other])
    {
      if other != id {
        assert r.sects[other] == g.sects[other];
      }
    }
  }

  /** A retreat by a non-negative distance keeps the state consistent. */
  lemma RetreatPreserves(catalog: Catalog, g: GameState, loser: SectId, distance: int, message: string)
    requires Valid(catalog, g) && distance >= 0
    ensures var r := Retreat(g, catalog, loser, distance, message);
            Valid(catalog, r) && Extends(g, r)
  {
    var r := Retreat(g, catalog, loser, distance, message);
    var before, after := g.sects[loser], r.sects[loser];
    assert before.locationName in before.visited;
    assert SectValid(catalog, loser, after);
    forall other: SectId
      ensures other in r.sects && SectValid(catalog, other, r.sects[other])
    {
      if other != loser {
        assert r.sects[other] == g.sects[other];
      }
    }
  }

  /** A direct stat edit keeps the state consistent. */
  lemma StatEditPreserves(catalog: Catalog, g: GameState, id: SectId, name: StatName, value: int)
    requires Valid(catalog, g)
    ensures Valid(catalog, StatEdit(g, id, name, value)) && Extends(g, StatEdit(g, id, name, value))
  {
    var r := StatEdit(g, id, name, value);
    forall other: SectId
      ensures other in r.sects && SectValid(catalog, other, r.sects[other])
    {
      assert r.sects[other].progress == g.sects[other].progress;
    }
  }

  /** Starting a turn with a non-negative DM distance keeps the session
      consistent: a committed turn stays on the track and an opened decision
      is well formed. */
  lemma TurnStartPreserves(g: GameState, catalog: Catalog, input: int, moveReply: Reply, conflictReply: Reply,
                           opportunityReply: Reply, roll: bool, freshWeather: string)
    requires Valid(catalog, g) && input >= 0
    ensures var s := TurnStart(g, catalog, input, moveReply, conflictReply, opportunityReply, roll, freshWeather);
            SessionValid(catalog, s) && Extends(g, s.game)
  {
    var id := ActiveId(g);
    var a := g.sects[id];
    var s := TurnStart(g, catalog, input, moveReply, conflictReply, opportunityReply, roll, freshWeather);
    if a.skipNextTurn {
      CommitPreserves(catalog, g, id, a.progress, SkipMessage(catalog, id), true, false, freshWeather);
    } else {
      var p := PendingProgress(a.progress, input);
      var dest := NameAt(catalog.locations, p);
      var e := Classify(g.turnQueue, g.sects, id, p, dest, roll);
      if e.Quiet? {
        var loc := LocationOf(catalog.locations, p as real);
        CommitPreserves(catalog, g, id, p, GenerateTurnEvent(moveReply, loc, g.weather).eventText,
                        false, false, freshWeather);
      }
    }
  }

  /** The result of a PvP resolution with a target: the commit of the acting
      sect on top of the retreat stage. */
  lemma ResolvePvPShape(s: Session, catalog: Catalog, winner: SectId, mode: PvpMode, distance: int,
                        freshWeather: string)
    requires Resolvable(s) && |catalog.locations| > 0
    requires s.pending.Some? && s.pending.value.target.Some?
    ensures var it := s.pending.value;
            ResolvePvP(s, catalog, winner, mode, distance, freshWeather)
            == Session(Commit(PvpRetreatStage(s.game, catalog, it, winner, mode, distance), it.active,
                              it.pendingProgress, it.locationName, PvpMessage(catalog, it, winner, mode, distance),
                              false, false, freshWeather), None)
  {
  }

  /** The retreat stage with a non-negative distance keeps the state
      consistent. */
  lemma PvpRetreatStagePreserves(catalog: Catalog, g: GameState, it: Interaction, winner: SectId, mode: PvpMode,
                                 distance: int)
    requires Valid(catalog, g) && it.target.Some? && distance >= 0
    ensures var g1 := PvpRetreatStage(g, catalog, it, winner, mode, distance);
            Valid(catalog, g1) && Extends(g, g1) && g1.day == g.day
  {
    if mode != Coop {
      RetreatPreserves(catalog, g, Loser(it, winner), distance, PvpMessage(catalog, it, winner, mode, distance));
    }
  }

  /** Resolving a collision with a non-negative retreat distance keeps the
      session consistent and discards the decision. */
  lemma ResolvePvPPreserves(s: Session, catalog: Catalog, winner: SectId, mode: PvpMode, distance: int,
                            freshWeather: string)
    requires SessionValid(catalog, s) && distance >= 0
    ensures var r := ResolvePvP(s, catalog, winner, mode, distance, freshWeather);
            SessionValid(catalog, r) && Extends(s.game, r.game)
  {
    if s.pending.Some? && s.pending.value.target.Some? {
      var it := s.pending.value;
      var g1 := PvpRetreatStage(s.game, catalog, it, winner, mode, distance);
      ResolvePvPShape(s, catalog, winner, mode, distance, freshWeather);
      PvpRetreatStagePreserves(catalog, s.game, it, winner, mode, distance);
      CommitPreserves(catalog, g1, it.active, it.pendingProgress, PvpMessage(catalog, it, winner, mode, distance),
                      false, false, freshWeather);
    }
  }

  /** The stat and skip update keeps the state consistent. */
  lemma RewardStagePreserves(catalog: Catalog, g: GameState, id: SectId, delta: Stats, applySkip: bool)
    requires Valid(catalog, g)
    ensures Valid(catalog, RewardStage(g, id, delta, applySkip)) && Extends(g, RewardStage(g, id, delta, applySkip))
  {
    var g1 := RewardStage(g, id, delta, applySkip);
    forall other: SectId
      ensures other in g1.sects && SectValid(catalog, other, g1.sects[other])
    {
      if other == id {
        var a := g.sects[id];
        assert g1.sects[id] == a.(stats := a.stats.Plus(delta), skipNextTurn := applySkip || a.skipNextTurn);
      } else {
        assert g1.sects[other] == g.sects[other];
      }
    }
  }

  /** Resolving an opportunity keeps the session consistent, whatever the
      distance: the final progress is clamped to the track. */
  lemma ResolveOpportunityPreserves(s: Session, catalog: Catalog, success: bool, reward: Direction, distance: int,
                                    delta: Stats, applySkip: bool, applyAgain: bool, freshWeather: string)
    requires SessionValid(catalog, s)
    ensures var r := ResolveOpportunity(s, catalog, success, reward, distance, delta, applySkip, applyAgain, freshWeather);
            SessionValid(catalog, r) && Extends(s.game, r.game)
  {
    if s.pending.Some? {
      var it := s.pending.value;
      var p := OpportunityProgress(it.pendingProgress, success, reward, distance);
      var finalName := NameAt(catalog.locations, p);
      var message := OpportunityMessage(catalog, it, success, distance, finalName, applySkip, applyAgain);
      var g1 := RewardStage(s.game, it.active, delta, applySkip);
      RewardStagePreserves(catalog, s.game, it.active, delta, applySkip);
      CommitPreserves(catalog, g1, it.active, p, message, false, applyAgain, freshWeather);
    }
  }
}

=== FILE: locations.dfy ===
/** The location lookup: every progress value, in or out of range, names a
    waypoint of the fixed table. */
module Locations {
  import opened Types

  function MinInt(a: int, b: int): int { if a <= b then a else b }
  function MaxInt(a: int, b: int): int { if a >= b then a else b }

  /** Progress forced into the track, [0, GoalProgress]. */
  function ClampProgress(p: real): (r: real)
    ensures 0.0 <= r <= GoalProgress as real
    ensures 0.0 <= p <= GoalProgress as real ==> r == p
  {
    if p < 0.0 then 0.0 else if p > GoalProgress as real then GoalProgress as real else p
  }

  /** The table index of a progress value: its floor, clamped to [0, 120]. */
  function LocationIndex(progress: real): (i: nat)
    ensures i <= GoalProgress
    ensures progress < 0.0 ==> i == 0
    ensures progress >= GoalProgress as real ==> i == GoalProgress
    ensures 0.0 <= progress < GoalProgress as real ==> i as real <= progress < i as real + 1.0
  {
    MinInt(GoalProgress, MaxInt(0, progress.Floor))
  }

  /** The waypoint at a progress value; an index past the end of a shorter
      table falls back to the first entry. */
  function LocationOf(table: seq<Location>, progress: real): (loc: Location)
    requires |table| > 0
    ensures loc in table
    ensures |table| == GoalProgress + 1 ==> loc == table[LocationIndex(progress)]
    ensures LocationIndex(progress) >= |table| ==> loc == table[0]
  {
    var i := LocationIndex(progress);
    if i < |table| then table[i] else table[0]
  }

  /** The name of the waypoint an integer progress value lies at. */
  function NameAt(table: seq<Location>, progress: int): string
    requires |table| > 0
  {
    LocationOf(table, progress as real).name
  }

  /** Looking up a progress value gives the same waypoint as looking up the
      value clamped to the track. */
  lemma LocationOfClamped(table: seq<Location>, p: real)
    requires |table| > 0
    ensures LocationOf(table, p) == LocationOf(table, ClampProgress(p))
  {
    assert LocationIndex(p) == LocationIndex(ClampProgress(p));
  }

  /** The table index never decreases as progress grows. */
  lemma LocationIndexMonotonic(p: real, q: real)
    requires p <= q
    ensures LocationIndex(p) <= LocationIndex(q)
  {
  }

  /** Every integer progress on the track names its own table entry. */
  lemma IntegerProgressIndex(table: seq<Location>, p: int)
    requires |table| == GoalProgress + 1 && 0 <= p <= GoalProgress
    ensures LocationOf(table, p as real) == table[p]
  {
    assert (p as real).Floor == p;
  }
}

=== FILE: narrative.dfy ===
/** Post-processing of generated text (services/geminiService.ts): the
    generator's reply is split on "|||", each field is trimmed, and fixed
    fallback text stands in for a missing or blank field, for an unreachable
    generator and for a failed call. The opportunity description is packed as
    two fields that the interaction dialog splits apart again. */
module Narrative {
  import opened Text
  import opened Types
  import opened Options

  /** What the generator gave back: no API key configured, an exception, or
      the response text (an absent text reads as ""). */
  datatype Reply = Offline | Failed | Answered(text: string)

  /** `parts[k]?.trim() || fallback`: the trimmed k-th field, unless it is
      missing or blank. */
  function FieldOr(parts: seq<string>, k: nat, fallback: string): (r: string)
    ensures fallback != "" ==> r != ""
    ensures k < |parts| && !AllSpace(parts[k]) ==> r == Trim(parts[k])
    ensures (k >= |parts| || AllSpace(parts[k])) ==> r == fallback
  {
    if k < |parts| && Trim(parts[k]) != "" then Trim(parts[k]) else fallback
  }

  // ---------------------------------------------------------------------------
  // ordinary move

  datatype TurnEvent = TurnEvent(locationName: string, eventText: string, effectSummary: string)

  function MoveFallback(weather: string): string {
    "冒着" + weather + "继续赶路。"
  }

  /** The narrative of an ordinary move. The prompt asks for
      "(blank) ||| story ||| summary". */
  function GenerateTurnEvent(reply: Reply, location: Location, weather: string): (e: TurnEvent)
    ensures e.locationName == location.name
    ensures e.eventText != "" && e.effectSummary != ""
    ensures reply.Offline? ==> e == TurnEvent(location.name, "迷雾笼罩，无法探知天机。", "无事发生")
    ensures reply.Failed? ==> e == TurnEvent(location.name, "...", "...")
    ensures reply.Answered? ==>
              && e.eventText == FieldOr(Split(reply.text), 1, MoveFallback(weather))
              && e.effectSummary == FieldOr(Split(reply.text), 2, "疾行赶路")
  {
    match reply
    case Offline => TurnEvent(location.name, "迷雾笼罩，无法探知天机。", "无事发生")
    case Failed => TurnEvent(location.name, "...", "...")
    case Answered(text) =>
      var parts := Split(text);
      TurnEvent(location.name, FieldOr(parts, 1, MoveFallback(weather)), FieldOr(parts, 2, "疾行赶路"))
  }

  /** A reply in the requested three-field format yields its trimmed story and
      summary; a reply with no second field falls back to the weather line. */
  lemma TurnEventFields(lead: string, story: string, summary: string, location: Location, weather: string)
    requires !HasDelim(lead) && !HasDelim(story) && !HasDelim(summary)
    requires !EndsWithBar(lead) && !EndsWithBar(story)
    ensures var e := GenerateTurnEvent(Answered(lead + Delim + story + Delim + summary), location, weather);
            && e.eventText == (if AllSpace(story) then MoveFallback(weather) else Trim(story))
            && e.effectSummary == (if AllSpace(summary) then "疾行赶路" else Trim(summary))
    ensures GenerateTurnEvent(Answered(lead), location, weather).eventText == MoveFallback(weather)
  {
    SplitTriple(lead, story, summary);
    assert lead + Delim + story + Delim + summary == lead + Delim + (story + Delim + summary);
  }

  /** Splitting "a|||b|||c" gives back its three fields. */
  lemma SplitTriple(a: string, b: string, c: string)
    requires !HasDelim(a) && !HasDelim(b) && !HasDelim(c)
    requires !EndsWithBar(a) && !EndsWithBar(b)
    ensures Split(a + Delim + b + Delim + c) == [a, b, c]
  {
    var bc := b + Delim + c;
    assert a + Delim + b + Delim + c == a + Delim + bc;
    SplitCons(a, bc);
    SplitPair(b, c);
    assert Split(a + Delim + bc) == [a] + [b, c];
  }

  // ---------------------------------------------------------------------------
  // conflict

  /** The narrative of a collision: the trimmed reply, with fixed text offline
      and for a failed call or a blank reply. */
  function GenerateConflictNarrative(reply: Reply): (r: string)
    ensures r != ""
    ensures reply.Offline? ==> r == "狭路相逢，剑拔弩张。"
    ensures reply.Failed? ==> r == "两派对峙。"
    ensures reply.Answered? && AllSpace(reply.text) ==> r == "两派对峙。"
    ensures reply.Answered? && !AllSpace(reply.text) ==> r == Trim(reply.text) && !IsSpace(r[0])
  {
    match reply
    case Offline => "狭路相逢，剑拔弩张。"
    case Failed => "两派对峙。"
    case Answered(text) => if Trim(text) != "" then Trim(text) else "两派对峙。"
  }

  // ---------------------------------------------------------------------------
  // random opportunity

  /** An opportunity as generated: a title and a description that packs the
      story and the DM's notes around the delimiter. */
  datatype OpportunityEvent = OpportunityEvent(title: string, description: string)

  /** The three fields of an opportunity before packing. */
  datatype OpportunityText = OpportunityText(title: string, story: string, notes: string)

  /** What the interaction dialog shows: the story and the DM's notes. */
  datatype Notes = Notes(story: string, notes: string)

  function StoryFallback(weather: string): string {
    "在" + weather + "中，风云突变。"
  }

  /** The service's packing: the title as is, and the story and the notes
      joined by the delimiter into one description. */
  function Pack(t: OpportunityText): (e: OpportunityEvent)
    ensures e.title == t.title
    ensures e.description == t.story + Delim + t.notes
  {
    OpportunityEvent(t.title, t.story + Delim + t.notes)
  }

  /** The dialog reads packed fields back exactly when both are free of the
      delimiter and the story does not end in '|'. */
  lemma PackRoundTrip(t: OpportunityText)
    requires !HasDelim(t.story) && !HasDelim(t.notes) && !EndsWithBar(t.story)
    ensures Unpack(Pack(t).description) == Notes(t.story, t.notes)
  {
    SplitPair(t.story, t.notes);
  }

  /** The dialog's reading of a description (App.tsx): the text before the
      first delimiter, and the text up to the next one, or "" when there is none. */
  function Unpack(description: string): (n: Notes)
    ensures !HasDelim(n.story) && !HasDelim(n.notes)
    ensures !HasDelim(description) ==> n == Notes(description, "")
  {
    var parts := Split(description);
    Notes(parts[0], if |parts| > 1 then parts[1] else "")
  }

  /** The fields exactly as services/geminiService.ts computes them. */
  function OpportunityFieldsAsWritten(reply: Reply, weather: string): (t: OpportunityText)
    ensures t.title != "" && t.story != "" && t.notes != ""
    ensures reply.Offline? ==> t == OpportunityText("江湖奇遇", "发现一处神秘洞穴。", "建议：若武力>30可探索。")
    ensures reply.Failed? ==> t == OpportunityText("未知机遇", "景象模糊。", "请DM自行裁决。")
    ensures reply.Answered? ==>
              var parts := Split(reply.text);
              && t.title == FieldOr(parts, 0, "江湖变故")
              && t.story == FieldOr(parts, 1, StoryFallback(weather))
              && t.notes == FieldOr(parts, 2, "请DM自行裁决。")
  {
    match reply
    case Offline => OpportunityText("江湖奇遇", "发现一处神秘洞穴。", "建议：若武力>30可探索。")
    case Failed => OpportunityText("未知机遇", "景象模糊。", "请DM自行裁决。")
    case Answered(text) =>
      var parts := Split(text);
      OpportunityText(FieldOr(parts, 0, "江湖变故"), FieldOr(parts, 1, StoryFallback(weather)),
                      FieldOr(parts, 2, "请DM自行裁决。"))
  }

  /** The opportunity exactly as services/geminiService.ts returns it. */
  function GenerateOpportunityEventAsWritten(reply: Reply, weather: string): (e: OpportunityEvent)
    ensures reply.Offline? ==> e == OpportunityEvent("江湖奇遇", "发现一处神秘洞穴。|||建议：若武力>30可探索。")
    ensures reply.Failed? ==> e == OpportunityEvent("未知机遇", "景象模糊。|||请DM自行裁决。")
    ensures var t := OpportunityFieldsAsWritten(reply, weather);
            e.title == t.title && e.description == t.story + Delim + t.notes
  {
    var e := Pack(OpportunityFieldsAsWritten(reply, weather));
    assert reply.Offline? ==> e.description == "发现一处神秘洞穴。|||建议：若武力>30可探索。";
    assert reply.Failed? ==> e.description == "景象模糊。|||请DM自行裁决。";
    e
  }

  /** s without the '|' characters at its end. */
  function DropTrailingBars(s: string): (r: string)
    ensures !EndsWithBar(r)
    ensures r <= s
    ensures forall k :: |r| <= k < |s| ==> s[k] == '|'
    decreases |s|
  {
    if EndsWithBar(s) then DropTrailingBars(s[..|s| - 1]) else s
  }

  /** The story field with trailing '|' removed as well, so that it cannot
      merge with the delimiter that follows it when packed. */
  function StoryField(parts: seq<string>, weather: string): (r: string)
    requires forall k :: 0 <= k < |parts| ==> !HasDelim(parts[k])
    ensures r != "" && !EndsWithBar(r)
    ensures !HasDelim(weather) ==> !HasDelim(r)
    ensures 1 < |parts| && !EndsWithBar(Trim(parts[1])) && !AllSpace(parts[1]) ==> r == Trim(parts[1])
    ensures |parts| <= 1 ==> r == StoryFallback(weather)
    ensures 1 < |parts| && DropTrailingBars(Trim(parts[1])) != "" ==> r == DropTrailingBars(Trim(parts[1]))
    ensures !(1 < |parts| && DropTrailingBars(Trim(parts[1])) != "") ==> r == StoryFallback(weather)
    ensures r != StoryFallback(weather) ==>
              && 1 < |parts| && r <= Trim(parts[1])
              && forall k :: |r| <= k < |Trim(parts[1])| ==> Trim(parts[1])[k] == '|'
  {
    var fallback := StoryFallback(weather);
    StoryFallbackClean(weather);
    if 1 < |parts| && DropTrailingBars(Trim(parts[1])) != "" then
      var s := Trim(parts[1]);
      TrimKeepsNoDelim(parts[1]);
      SliceKeepsNoDelim(s, 0, |DropTrailingBars(s)|);
      assert s[0..|DropTrailingBars(s)|] == DropTrailingBars(s);
      DropTrailingBars(s)
    else fallback
  }

  /** The fields with the packing fault corrected: the story loses trailing '|'. */
  function OpportunityFields(reply: Reply, weather: string): (t: OpportunityText)
    ensures t.title != "" && t.story != "" && t.notes != ""
    ensures !HasDelim(t.notes) && !EndsWithBar(t.story)
    ensures !HasDelim(weather) ==> !HasDelim(t.story)
    ensures OpportunityFieldsAsWritten(reply, weather).title == t.title
    ensures OpportunityFieldsAsWritten(reply, weather).notes == t.notes
    ensures !EndsWithBar(OpportunityFieldsAsWritten(reply, weather).story)
            ==> t == OpportunityFieldsAsWritten(reply, weather)
    ensures reply.Answered? ==> t.story == StoryField(Split(reply.text), weather)
  {
    match reply
    case Offline => OpportunityText("江湖奇遇", "发现一处神秘洞穴。", "建议：若武力>30可探索。")
    case Failed => OpportunityText("未知机遇", "景象模糊。", "请DM自行裁决。")
    case Answered(text) =>
      var parts := Split(text);
      FieldOrClean(parts, 2, "请DM自行裁决。");
      OpportunityText(FieldOr(parts, 0, "江湖变故"), StoryField(parts, weather),
                      FieldOr(parts, 2, "请DM自行裁决。"))
  }

  /** The opportunity with the packing fault corrected: the same constants
      offline and on failure, the same event whenever the story field does not
      end in '|', and a description the dialog always reads back. */
  function GenerateOpportunityEvent(reply: Reply, weather: string): (e: OpportunityEvent)
    ensures reply.Offline? ==> e == OpportunityEvent("江湖奇遇", "发现一处神秘洞穴。|||建议：若武力>30可探索。")
    ensures reply.Failed? ==> e == OpportunityEvent("未知机遇", "景象模糊。|||请DM自行裁决。")
    ensures !EndsWithBar(OpportunityFieldsAsWritten(reply, weather).story) ==>
              e == GenerateOpportunityEventAsWritten(reply, weather)
  {
    var e := Pack(OpportunityFields(reply, weather));
    assert reply.Offline? ==> e.description == "发现一处神秘洞穴。|||建议：若武力>30可探索。";
    assert reply.Failed? ==> e.description == "景象模糊。|||请DM自行裁决。";
    e
  }

  /** A field taken from split pieces, or from a fallback, has no delimiter. */
  lemma FieldOrClean(parts: seq<string>, k: nat, fallback: string)
    requires forall i :: 0 <= i < |parts| ==> !HasDelim(parts[i])
    requires !HasDelim(fallback)
    ensures !HasDelim(FieldOr(parts, k, fallback))
  {
    if k < |parts| {
      TrimKeepsNoDelim(parts[k]);
    }
  }

  /** The weather line never ends in '|', and holds the delimiter only if the
      weather label does. */
  lemma StoryFallbackClean(weather: string)
    ensures !EndsWithBar(StoryFallback(weather))
    ensures !HasDelim(weather) ==> !HasDelim(StoryFallback(weather))
  {
    var s := StoryFallback(weather);
    var n := |weather|;
    assert |s| == n + 8;
    assert s[|s| - 1] == '。';
    if HasDelim(weather) { return; }
    forall j | 0 <= j < |s|
      ensures !DelimAt(s, j)
    {
      if j == 0 || j > n - 2 {
        assert s[0] == '在' && s[n + 1] == '中';
      } else {
        assert !DelimAt(weather, j - 1);
        assert s[j] == weather[j - 1] && s[j + 1] == weather[j] && s[j + 2] == weather[j + 1];
      }
    }
  }

  /** The dialog recovers exactly the story and the notes the service packed,
      on every path (offline, failed, answered). */
  lemma OpportunityRoundTrip(reply: Reply, weather: string)
    requires !HasDelim(weather)
    ensures var t := OpportunityFields(reply, weather);
            Unpack(GenerateOpportunityEvent(reply, weather).description) == Notes(t.story, t.notes)
  {
    PackRoundTrip(OpportunityFields(reply, weather));
  }

  /** A reply in the requested three-field format yields its trimmed title,
      story and notes, each replaced by its fallback when blank. */
  lemma OpportunityFieldsOfReply(title: string, story: string, notes: string, weather: string)
    requires !HasDelim(title) && !HasDelim(story) && !HasDelim(notes)
    requires !EndsWithBar(title) && !EndsWithBar(story)
    ensures OpportunityFieldsAsWritten(Answered(title + Delim + story + Delim + notes), weather)
            == OpportunityText(if AllSpace(title) then "江湖变故" else Trim(title),
                               if AllSpace(story) then StoryFallback(weather) else Trim(story),
                               if AllSpace(notes) then "请DM自行裁决。" else Trim(notes))
  {
    SplitTriple(title, story, notes);
  }

  /** As written, a reply whose story field ends in '|' is packed into a
      description the dialog splits at the wrong place: "T|||D|" gives the story
      "D|", but the dialog shows "D" and the notes "|请DM自行裁决。". */
  lemma AsWrittenPackMisreads()
    ensures var t := OpportunityFieldsAsWritten(Answered("T|||D|"), "晴");
            && t.story == "D|" && t.notes == "请DM自行裁决。"
            && Unpack(GenerateOpportunityEventAsWritten(Answered("T|||D|"), "晴").description)
               == Notes("D", "|请DM自行裁决。")
  {
    AsWrittenFieldsOfBarReply();
    MisreadOfBarStory();
  }

  lemma AsWrittenFieldsOfBarReply()
    ensures OpportunityFieldsAsWritten(Answered("T|||D|"), "晴") == OpportunityText("T", "D|", "请DM自行裁决。")
  {
    SplitOfBarReply();
    TrimUnpadded("T");
    TrimUnpadded("D|");
  }

  lemma SplitOfBarReply()
    ensures Split("T|||D|") == ["T", "D|"]
  {
    assert !HasDelim("T") && !HasDelim("D|");
    assert "T|||D|" == "T" + Delim + "D|";
    SplitPair("T", "D|");
  }

  lemma MisreadOfBarStory()
    ensures Unpack("D|" + Delim + "请DM自行裁决。") == Notes("D", "|请DM自行裁决。")
  {
    var tail := "|请DM自行裁决。";
    assert !DelimAt(tail, 0) && !DelimAt(tail, 1);
    assert !HasDelim(tail);
    assert !HasDelim("D");
    assert "D|" + Delim + "请DM自行裁决。" == "D" + Delim + tail;
    SplitCons("D", tail);
  }
}

=== FILE: options.dfy ===
/** The optional value used for JavaScript's `undefined`-able fields and lookups. */
module Options {

  datatype Option<+T> = None | Some(value: T)
}

=== FILE: text.dfy ===
/** The string primitives the game relies on, with JavaScript's semantics:
    `split` on the reserved delimiter "|||", `trim`, and the decimal rendering
    of an integer inside a template string. */
module Text {
  import opened Options

  /** The reserved delimiter that separates fields of generated text. */
  const Delim: string := "|||"

  /** The delimiter occurs at position i of s. */
  predicate DelimAt(s: string, i: int) {
    0 <= i && i + 3 <= |s| && s[i] == '|' && s[i + 1] == '|' && s[i + 2] == '|'
  }

  predicate HasDelim(s: string) {
    exists i :: 0 <= i < |s| && DelimAt(s, i)
  }

  predicate EndsWithBar(s: string) {
    |s| > 0 && s[|s| - 1] == '|'
  }

  /** The first position at or after k where the delimiter starts (`indexOf`). */
  function FindDelim(s: string, k: nat): (r: Option<nat>)
    requires k <= |s|
    ensures r.Some? ==> k <= r.value && DelimAt(s, r.value)
    ensures r.Some? ==> forall j :: k <= j < r.value ==> !DelimAt(s, j)
    ensures r.None? ==> forall j :: k <= j ==> !DelimAt(s, j)
    decreases |s| - k
  {
    if k + 3 > |s| then None
    else if DelimAt(s, k) then Some(k)
    else FindDelim(s, k + 1)
  }

  /** Joins fields with the delimiter between consecutive ones (`join('|||')`). */
  function Join(parts: seq<string>): string
    requires |parts| >= 1
  {
    if |parts| == 1 then parts[0] else parts[0] + Delim + Join(parts[1..])
  }

  /** A prefix of s that ends before the first delimiter holds no delimiter. */
  lemma {:induction false} PrefixBeforeDelim(s: string, i: nat)
    requires i <= |s|
    requires forall j :: 0 <= j < i ==> !DelimAt(s, j)
    ensures !HasDelim(s[..i])
  {
    forall j | 0 <= j < i
      ensures !DelimAt(s[..i], j)
    {
      assert !DelimAt(s, j);
    }
  }

  /** `s.split('|||')`: the pieces between non-overlapping occurrences of the
      delimiter, matched left to right; a string without the delimiter is one piece.
      Leftmost matching shows in the pieces: every piece but the last is followed
      by the first delimiter after it, so it cannot end in '|'. */
  function Split(s: string): (parts: seq<string>)
    ensures |parts| >= 1
    ensures forall k :: 0 <= k < |parts| ==> !HasDelim(parts[k])
    ensures forall k :: 0 <= k < |parts| - 1 ==> !EndsWithBar(parts[k])
    ensures Join(parts) == s
    ensures !HasDelim(s) ==> parts == [s]
    ensures |parts| > 1 ==> FindDelim(s, 0) == Some(|parts[0]|)
    decreases |s|
  {
    match FindDelim(s, 0)
    case None => [s]
    case Some(i) =>
      PrefixBeforeDelim(s, i);
      FirstMatchNoBar(s, i);
      var rest := Split(s[i + 3..]);
      assert s == s[..i] + Delim + s[i + 3..];
      [s[..i]] + rest
  }

  /** The text before the leftmost delimiter cannot end in '|': the delimiter
      would then start one position earlier. */
  lemma FirstMatchNoBar(s: string, i: nat)
    requires FindDelim(s, 0) == Some(i)
    ensures !EndsWithBar(s[..i])
  {
    if i > 0 {
      assert !DelimAt(s, i - 1);
      assert s[i] == '|' && s[i + 1] == '|';
      assert s[..i][i - 1] == s[i - 1];
    }
  }

  /** In "a|||rest", with a free of the delimiter and not ending in '|', the
      leftmost delimiter is the one right after a. */
  lemma FirstDelimAfter(a: string, rest: string)
    requires !HasDelim(a) && !EndsWithBar(a)
    ensures FindDelim(a + Delim + rest, 0) == Some(|a|)
  {
    var s := a + Delim + rest;
    forall j | 0 <= j < |a|
      ensures !DelimAt(s, j)
    {
      if j + 3 <= |a| {
        assert !DelimAt(a, j);
        assert s[j] == a[j] && s[j + 1] == a[j + 1] && s[j + 2] == a[j + 2];
      } else {
        assert s[|a| - 1] == a[|a| - 1] != '|';
      }
    }
    assert DelimAt(s, |a|);
  }

  /** Splitting "a|||rest" gives a, then the pieces of rest, provided a holds
      no delimiter and does not end in '|' (which would shift the first match left). */
  lemma SplitCons(a: string, rest: string)
    requires !HasDelim(a) && !EndsWithBar(a)
    ensures Split(a + Delim + rest) == [a] + Split(rest)
  {
    var s := a + Delim + rest;
    FirstDelimAfter(a, rest);
    assert s[|a| + 3..] == rest;
    assert s[..|a|] == a;
  }

  /** Splitting "a|||b" gives back a and b exactly, when neither holds the
      delimiter and a does not end in '|'. */
  lemma SplitPair(a: string, b: string)
    requires !HasDelim(a) && !HasDelim(b) && !EndsWithBar(a)
    ensures Split(a + Delim + b) == [a, b]
  {
    SplitCons(a, b);
  }

  /** The split is the only way to cut s into delimiter-free pieces, all but
      the last not ending in '|', that join back to s. */
  lemma {:induction false} SplitUnique(s: string, parts: seq<string>)
    requires |parts| >= 1 && Join(parts) == s
    requires forall k :: 0 <= k < |parts| ==> !HasDelim(parts[k])
    requires forall k :: 0 <= k < |parts| - 1 ==> !EndsWithBar(parts[k])
    ensures Split(s) == parts
    decreases |parts|
  {
    if |parts| > 1 {
      var tail := parts[1..];
      SplitUnique(Join(tail), tail);
      SplitCons(parts[0], Join(tail));
      assert [parts[0]] + tail == parts;
    }
  }

  // ---------------------------------------------------------------------------
  // trim

  /** The characters `String.prototype.trim` removes: ECMAScript WhiteSpace and
      LineTerminator code points. */
  const JsSpaces: set<char> := {
    '\t', '\n', '\U{000B}', '\U{000C}', '\r', ' ', '\U{00A0}', '\U{1680}',
    '\U{2000}', '\U{2001}', '\U{2002}', '\U{2003}', '\U{2004}', '\U{2005}',
    '\U{2006}', '\U{2007}', '\U{2008}', '\U{2009}', '\U{200A}',
    '\U{2028}', '\U{2029}', '\U{202F}', '\U{205F}', '\U{3000}', '\U{FEFF}'
  }

  predicate IsSpace(c: char) {
    c in JsSpaces
  }

  predicate AllSpace(s: string) {
    forall k :: 0 <= k < |s| ==> IsSpace(s[k])
  }

  /** The first position at or after k that is not a space, or |s|. */
  function SkipSpaces(s: string, k: nat): (n: nat)
    requires k <= |s|
    ensures k <= n <= |s|
    ensures forall j :: k <= j < n ==> IsSpace(s[j])
    ensures n < |s| ==> !IsSpace(s[n])
    decreases |s| - k
  {
    if k == |s| || !IsSpace(s[k]) then k else SkipSpaces(s, k + 1)
  }

  /** The end of s[..e] once trailing spaces at or after lo are dropped. */
  function BackSpaces(s: string, lo: nat, e: nat): (n: nat)
    requires lo <= e <= |s|
    ensures lo <= n <= e
    ensures forall j :: n <= j < e ==> IsSpace(s[j])
    ensures n > lo ==> !IsSpace(s[n - 1])
    decreases e
  {
    if e == lo || !IsSpace(s[e - 1]) then e else BackSpaces(s, lo, e - 1)
  }

  lemma TrimBounds(s: string, i: nat, j: nat)
    requires i == SkipSpaces(s, 0) && j == BackSpaces(s, i, |s|)
    ensures i == j <==> AllSpace(s)
    ensures i < j ==> !IsSpace(s[i])
    ensures AllSpace(s[..i]) && AllSpace(s[j..])
  {
    if i == j {
      assert forall k :: 0 <= k < |s| ==> IsSpace(s[k]);
    }
  }

  /** `s.trim()`: s with its leading and trailing spaces removed. */
  function Trim(s: string): (r: string)
    ensures |r| <= |s|
    ensures |r| > 0 ==> !IsSpace(r[0]) && !IsSpace(r[|r| - 1])
    ensures r == "" <==> AllSpace(s)
    ensures exists i :: 0 <= i <= |s| - |r| && s[i..i + |r|] == r
                        && AllSpace(s[..i]) && AllSpace(s[i + |r|..])
  {
    var i := SkipSpaces(s, 0);
    var j := BackSpaces(s, i, |s|);
    TrimBounds(s, i, j);
    s[i..j]
  }

  /** A piece of a string without the delimiter has none either. */
  lemma SliceKeepsNoDelim(s: string, i: nat, j: nat)
    requires i <= j <= |s| && !HasDelim(s)
    ensures !HasDelim(s[i..j])
  {
    forall k | 0 <= k < j - i
      ensures !DelimAt(s[i..j], k)
    {
      assert !DelimAt(s, i + k);
    }
  }

  lemma TrimKeepsNoDelim(s: string)
    requires !HasDelim(s)
    ensures !HasDelim(Trim(s))
  {
    var i := SkipSpaces(s, 0);
    var j := BackSpaces(s, i, |s|);
    assert Trim(s) == s[i..j];
    SliceKeepsNoDelim(s, i, j);
  }

  /** Trimming twice is trimming once. */
  lemma TrimIdempotent(s: string)
    ensures Trim(Trim(s)) == Trim(s)
  {
    var r := Trim(s);
    assert SkipSpaces(r, 0) == 0;
    assert BackSpaces(r, 0, |r|) == |r|;
    assert r[0..|r|] == r;
  }

  /** A string with no space at either end is its own trim. */
  lemma TrimUnpadded(s: string)
    requires |s| > 0 && !IsSpace(s[0]) && !IsSpace(s[|s| - 1])
    ensures Trim(s) == s
  {
    assert SkipSpaces(s, 0) == 0;
    assert BackSpaces(s, 0, |s|) == |s|;
    assert s[0..|s|] == s;
  }

  // ---------------------------------------------------------------------------
  // decimal numbers in template strings

  function DigitChar(d: nat): (c: char)
    requires d < 10
    ensures '0' <= c <= '9'
    ensures (c as int) - ('0' as int) == d
  {
    (('0' as int) + d) as char
  }

  predicate IsDigit(c: char) {
    '0' <= c <= '9'
  }

  /** The decimal digits of n without leading zeros, as `${n}` writes a whole
      number below 1e21 (larger ones switch to exponent form). */
  function NatToDecimal(n: nat): (r: string)
    ensures |r| >= 1
    ensures forall k :: 0 <= k < |r| ==> IsDigit(r[k])
    ensures |r| > 1 ==> r[0] != '0'
    decreases n
  {
    if n < 10 then [DigitChar(n)] else NatToDecimal(n / 10) + [DigitChar(n % 10)]
  }

  /** A signed decimal numeral: digits, optionally after one minus sign. */
  predicate IsDecimal(s: string) {
    && |s| >= 1
    && (s[0] == '-' ==> forall k :: 1 <= k < |s| ==> IsDigit(s[k]))
    && (s[0] != '-' ==> forall k :: 0 <= k < |s| ==> IsDigit(s[k]))
  }

  /** `${i}` for an integer: a minus sign before the digits of |i| when negative. */
  function IntToDecimal(i: int): (r: string)
    ensures IsDecimal(r)
    ensures i < 0 <==> r[0] == '-'
  {
    if i < 0 then "-" + NatToDecimal(-i) else NatToDecimal(i)
  }

  /** The value of a string of decimal digits (an independent reading of one). */
  function DecimalValue(s: string): int
    requires forall k :: 0 <= k < |s| ==> IsDigit(s[k])
  {
    if |s| == 0 then 0
    else DecimalValue(s[..|s| - 1]) * 10 + ((s[|s| - 1] as int) - ('0' as int))
  }

  /** Reading back a signed decimal rendering. */
  function ParseDecimal(s: string): int
    requires IsDecimal(s)
  {
    if s[0] == '-' then -DecimalValue(s[1..]) else DecimalValue(s)
  }

  lemma {:induction false} NatDecimalRoundTrip(n: nat)
    ensures DecimalValue(NatToDecimal(n)) == n
  {
    if n >= 10 {
      NatDecimalRoundTrip(n / 10);
      var r := NatToDecimal(n);
      assert r[..|r| - 1] == NatToDecimal(n / 10);
    }
  }

  /** The rendering of an integer reads back as the same integer, so different
      integers render differently. */
  lemma IntDecimalRoundTrip(i: int)
    ensures ParseDecimal(IntToDecimal(i)) == i
  {
    if i < 0 {
      NatDecimalRoundTrip(-i);
      assert IntToDecimal(i)[1..] == NatToDecimal(-i);
    } else {
      NatDecimalRoundTrip(i);
    }
  }

  // ---------------------------------------------------------------------------
  // containment

  /** w occurs somewhere in s. */
  predicate Contains(s: string, w: string) {
    exists i :: 0 <= i <= |s| && w <= s[i..]
  }

  /** In a string made of three pieces, the first piece and the first two
      lead it, the middle one occurs in it and the last one ends it. */
  lemma ThreePieces(a: string, b: string, c: string)
    ensures a <= a + b + c && a + b <= a + b + c
    ensures (a + b + c)[|a|..|a| + |b|] == b
    ensures Contains(a + b + c, b) && EndsWith(a + b + c, c)
  {
    var s := a + b + c;
    assert s[..|a|] == a;
    assert s[..|a + b|] == a + b;
    assert s[|a|..][..|b|] == b;
    assert s[|a + b|..] == c;
  }

  /** s ends with t. */
  predicate EndsWith(s: string, t: string) {
    |t| <= |s| && s[|s| - |t|..] == t
  }

  lemma EndsWithAppend(x: string, t: string)
    ensures EndsWith(x + t, t)
  {
    assert (x + t)[|x|..] == t;
  }

  lemma EndsWithExtend(x: string, y: string, t: string)
    requires EndsWith(y, t)
    ensures EndsWith(x + y, t)
  {
    assert (x + y)[|x + y| - |t|..] == y[|y| - |t|..];
  }

  lemma EndsWithGrow(s: string, u: string, v: string)
    requires EndsWith(s, u)
    ensures EndsWith(s + v, u + v)
  {
    assert (s + v)[|s + v| - |u + v|..] == s[|s| - |u|..] + v;
  }
}

=== FILE: types.dfy ===
/** The records of the seven-faction race: faction identities, per-faction
    state, the game aggregate, log entries and the pending DM decision. */
module Types {
  import opened Options

  /** The goal: progress runs from 0 (start) to this value, and the location
      table has one entry per integer progress in between. */
  const GoalProgress: int := 120

  /** The seven competing sects. */
  datatype SectId = Tianhe | Beige | Wangsheng | Fulong | Nantuo | Xueyi | Dari

  /** The position of a sect in the enumeration's declaration order. */
  function SectOrdinal(id: SectId): (i: nat)
    ensures i < 7
  {
    match id
    case Tianhe => 0
    case Beige => 1
    case Wangsheng => 2
    case Fulong => 3
    case Nantuo => 4
    case Xueyi => 5
    case Dari => 6
  }

  /** The sect at a position of the enumeration. */
  function SectAt(i: nat): (id: SectId)
    requires i < 7
    ensures SectOrdinal(id) == i
  {
    [Tianhe, Beige, Wangsheng, Fulong, Nantuo, Xueyi, Dari][i]
  }

  /** There are exactly seven sect identities: the ordinal is a bijection onto 0..6. */
  lemma SevenSects(a: SectId, b: SectId)
    ensures SectAt(SectOrdinal(a)) == a
    ensures SectOrdinal(a) == SectOrdinal(b) ==> a == b
  {
  }

  datatype StatName = Martial | Strategy | Wealth | Prestige

  /** The four signed, unbounded attributes of a sect. */
  datatype Stats = Stats(martial: int, strategy: int, wealth: int, prestige: int) {

    function Get(name: StatName): int {
      match name
      case Martial => martial
      case Strategy => strategy
      case Wealth => wealth
      case Prestige => prestige
    }

    /** The same stats with one of them replaced (`{ ...stats, [name]: v }`). */
    function With(name: StatName, v: int): (r: Stats)
      ensures r.Get(name) == v
      ensures forall other :: other != name ==> r.Get(other) == Get(other)
    {
      match name
      case Martial => this.(martial := v)
      case Strategy => this.(strategy := v)
      case Wealth => this.(wealth := v)
      case Prestige => this.(prestige := v)
    }

    /** Each stat increased by the corresponding delta. */
    function Plus(d: Stats): (r: Stats)
      ensures forall name :: r.Get(name) == Get(name) + d.Get(name)
    {
      Stats(martial + d.martial, strategy + d.strategy, wealth + d.wealth, prestige + d.prestige)
    }
  }

  /** The state of one sect. `locationName` is derived from `progress`;
      `visited` lists each discovered location once, in discovery order;
      `history` is the sect's own log, which only grows. */
  datatype SectState = SectState(
    id: SectId,
    progress: int,
    locationName: string,
    stats: Stats,
    history: seq<string>,
    visited: seq<string>,
    lastMoveDesc: string,
    skipNextTurn: bool)

  /** The four categories of a global log entry. */
  datatype LogKind = Move | Conflict | Event | System

  datatype LogEntry = LogEntry(day: int, content: string, kind: LogKind)

  /** The game aggregate. `activeIndex` indexes `turnQueue`; `sects` maps every
      sect to its state. */
  datatype GameState = GameState(
    day: int,
    weather: string,
    activeIndex: int,
    turnQueue: seq<SectId>,
    isDayComplete: bool,
    sects: map<SectId, SectState>,
    log: seq<LogEntry>)

  datatype InteractionKind = Pvp | Opportunity

  /** A decision awaiting the DM: the acting sect, the sect it ran into (PvP
      only), where, the generated narrative, and the progress the acting sect
      reaches once the decision is made. */
  datatype Interaction = Interaction(
    kind: InteractionKind,
    active: SectId,
    target: Option<SectId>,
    locationName: string,
    description: string,
    pendingProgress: int)

  datatype Location = Location(id: int, name: string, desc: string)

  /** The static tables the engine reads: the location table indexed by
      integer progress, and each sect's display name. */
  datatype Catalog = Catalog(locations: seq<Location>, sectName: SectId -> string)
}
